=== FILE: README.md ===
# Zero-coupon curve and forward-rate agreement, modelled in Dafny

This project models `interest_rate_prod.py`. The file has two value objects: a zero-coupon-bond
discount curve (`ZCB_curve`) and a forward-rate agreement priced on that curve (`FRA`).
Numbers are exact `real`s, calendar dates are integer day ordinals, and the day count is
actual/365 (`Times.DaysInYear`). Each Python assertion, numpy error and Python exception
becomes a distinct `Results.Error` value inside a `Result`.

- `LinearInterp` gives numpy's `interp` for strictly increasing sample points:
  - exact at the knots;
  - the linear blend of the two neighbours strictly between knots;
  - clamped to the first or last value outside the sampled range.

  The lemmas prove these facts. They also prove that the interpolant of decreasing values is
  strictly decreasing inside the range.
- `ZcbCurves.ZcbCurve` is a class whose fields are fixed at construction. The constructor
  assigns the fields step by step, as the source does. When it is built from discount factors,
  the constructor stores the inputs as the discount factors, derives the yields and resets the
  kind to `"yield"`. `New` is the construction with its two checks (equal lengths, known kind),
  returning the error when one fails. The remaining members are:
  - `GetCurve`, which hands out an interpolator, or nothing for a method other than `"linear"`;
  - `GetDiscountFactor`, which is P(t, T) = DF(T)/DF(t);
  - `GetForwardRate`, whose continuous branch is (y(T)·T − y(t)·t)/(T − t).
- `Fras.Fra` is a class. Its fields are fixed at construction, except the agreed rate `K`,
  which `SetPrice` overwrites.
  - Construction checks, in the source's order: that T and S have the same type, the accrual
    fraction (numbers only), that the maturity date is before the settlement date, and that the
    curve is aligned with the inception date. It then fixes K = (DF(T/365)/DF(S/365) − 1)/tau.
  - `GetValue` marks the long position to market as N·tau·(f − K).
  - Valued at inception against its own curve with K unchanged, the agreement is worth exactly
    zero.

Time arguments are a `TimeArg`: a date, a Python `int`, a Python `float`, or a value of another
type that does not compare with a number. Keeping `int` and `float` apart lets the model follow
`type(T) == type(S)` (line 126) for these four kinds of argument. Number-like values of other
types, and subclasses of `int` and `float`, are outside the model (see "Left out").
Adding `timedelta(days=x)` to a date first rounds x to whole microseconds, with ties going to
the even neighbour. The date then moves by the whole days of that duration, rounded down
(`Times.ShiftDays`). A day count less than half a microsecond short of a whole number n
therefore moves the date by n days.

Default arguments are the source's. A curve takes yields and compounding 1/2 unless told
otherwise. `GetCurve` defaults to the linear method and the yield representation, and
`GetDiscountFactor` and `GetForwardRate` to the linear method. `GetForwardRate` also defaults to
compounding 1/2, which selects its periodic branch.

Where the code's behaviour is easy to misread:
- For the discount-factor and forward-rate queries, only t is checked against the reference
  date. T given as a date is checked only against t, and only with `<=` (lines 59, 66). Equal
  dates therefore pass, and the forward rate then divides by zero.
- A T given as a date while t is a number reads the unbound `tdt` (line 66). The model returns
  `UnboundDate`.
- A numeric valuation time is checked only against the maturity (line 171); no lower bound is
  checked there. The diagnostic print on line 172 can still raise `OverflowError` for a time far
  outside the calendar, which the model does not capture (see "Left out").
- When the FRA's T and S are given as dates, they are stored in years (line 133), and line 155
  divides them by 365 again. The model keeps this: `Fras.FairRate` divides the stored terms
  whatever their unit.
- A numeric accrual fraction must equal (S − T)/365 exactly (line 141).
- numpy divisions by zero return inf or nan instead of raising. The model reports them as
  `NonFinite`. A Python float division by zero (line 99) is `ZeroDivision`.

## Model

| member | source | states |
|---|---|---|
| `Times.YearFraction` | interest_rate_prod.py:133-135 | the actual/365 year fraction between two dates is non-negative exactly when the dates are in order and positive exactly when strictly in order |
| `Times.SameType` | interest_rate_prod.py:126 | two time arguments have the same type exactly when both are dates, both Python ints, both Python floats, or both of another type with the same name; an int never matches a float |
| `Times.RoundHalfEven` | interest_rate_prod.py:137-138 | the microsecond rounding of a `timedelta`: the result is within one half of its argument, and even when the argument lies exactly halfway |
| `Times.RoundHalfEvenUnique` | interest_rate_prod.py:137-138 | any integer within one half of x, and even on a tie, is the rounding of x, so the two properties pin the rounding down |
| `Times.ShiftDays` | interest_rate_prod.py:137-138 | adding a day count to a date moves it by the whole days, rounded down, of the day count rounded to whole microseconds |
| `Times.ShiftDaysNearFloor` | interest_rate_prod.py:137-138 | the shifted date is never more than half a microsecond beyond day + d, and always less than a day below it |
| `Times.ShiftWholeDays` | interest_rate_prod.py:137-138 | a whole number n of days moves the date by exactly n |
| `Times.ShiftJustBelowOneDay` | interest_rate_prod.py:137-138 | a day count a quarter of a microsecond short of one day moves the date by a full day, not by zero |
| `LinearInterp.Blend` | interest_rate_prod.py:46-48 | numpy's slope-times-offset line through two points passes through both of them |
| `LinearInterp.Interp` | interest_rate_prod.py:46-48 | at or below the first maturity it returns the first value; at or above the last maturity it returns the last value |
| `LinearInterp.InterpFrom` | interest_rate_prod.py:46-48 | from the first of at least two maturities on, the interpolant is the first segment's blend or the interpolant over the remaining maturities; at or above the last maturity it returns the last value |
| `LinearInterp.InterpAtKnot` | interest_rate_prod.py:46-48 | at every stored maturity the interpolant returns the stored value exactly |
| `LinearInterp.InterpBetween` | interest_rate_prod.py:46-48 | strictly between two adjacent maturities the interpolant is the linear blend of their values |
| `LinearInterp.InterpFlat` | interest_rate_prod.py:46 | values that are all equal interpolate to that value at every time |
| `LinearInterp.InterpAtMostFirst` | interest_rate_prod.py:48 | with decreasing values, nothing from the first maturity on exceeds the first value |
| `LinearInterp.InterpStrictlyDecreasing` | interest_rate_prod.py:48 | with decreasing values, T1 < T2 inside the sampled range gives DF(T1) > DF(T2) |
| `ZcbCurves.CheckCurveInputs` | interest_rate_prod.py:15-16 | construction fails with a length error when maturities and rates differ in length, otherwise with a kind error unless the kind is "yield" or "discount factor"; each kind is accepted exactly when lengths agree |
| `ZcbCurves.YieldsToDiscounts` | interest_rate_prod.py:23-27 | one discount factor per maturity, by the periodic formula when the frequency is non-zero and the continuous one otherwise |
| `ZcbCurves.DiscountsToYields` | interest_rate_prod.py:28-34 | one yield per maturity, by the periodic inverse when the frequency is non-zero and the continuous inverse otherwise |
| `ZcbCurves.Interpolator.At` | interest_rate_prod.py:46-48 | calling the interpolator fails exactly when there are no maturities, and otherwise returns the linear interpolant |
| `ZcbCurves.ResolveQueryTimes` | interest_rate_prod.py:56-69 | a date before the reference date, a negative number, a value that does not compare with a number, an out-of-order pair and a date T after a numeric t are each rejected, a T of another type is rejected once t has passed, and a later numeric T after a valid date t is accepted; on success 0 ≤ t ≤ T, with t < T when T is a number, and dates become year fractions from the reference date |
| `ZcbCurves.ZcbCurve.constructor` | interest_rate_prod.py:7-36 | built from yields, it keeps them and derives discount factors; built from discount factors, it stores the inputs unchanged as discount factors, derives yields and normalises the kind to "yield" |
| `ZcbCurves.ZcbCurve.New` | interest_rate_prod.py:15-36 | construction fails with the input check's error exactly when that check fails, and otherwise yields a valid curve holding the inputs as the constructor does |
| `ZcbCurves.ZcbCurve.GetCurve` | interest_rate_prod.py:38-50 | an unknown representation is rejected; a method other than "linear" gives no function; the linear method with a known representation always gives an interpolator, over the maturities and the requested representation |
| `ZcbCurves.ZcbCurve.DiscountCurve` | interest_rate_prod.py:151 | the default discount-factor interpolator runs over the maturities and the stored discount factors |
| `ZcbCurves.ZcbCurve.GetDiscountFactor` | interest_rate_prod.py:52-73 | time-check errors pass through; an unsupported method fails when its missing function is called; an empty curve fails; otherwise the result is interp_dcf(T)/interp_dcf(t), available exactly when interp_dcf(t) ≠ 0 |
| `ZcbCurves.ContinuousForward` | interest_rate_prod.py:100-101 | accruing y(t) up to t and then the forward rate up to T equals accruing y(T) up to T; equal yields give that yield as the forward rate |
| `ZcbCurves.ZcbCurve.GetForwardRate` | interest_rate_prod.py:75-101 | same failure cases as the discount factor; with continuous compounding the result is (y(T)·T − y(t)·t)/(T − t) over the interpolated yields, available exactly when t < T |
| `ZcbCurves.InterpolatorMatchesCurve` | interest_rate_prod.py:44-48 | the interpolator the curve hands out is exact at each maturity, clamped at both ends, and linear between adjacent maturities |
| `ZcbCurves.DiscountFactorChain` | interest_rate_prod.py:72-73 | forward discount factors compose: P(a, b)·P(b, c) = P(a, c) |
| `ZcbCurves.DiscountFactorBelowOne` | interest_rate_prod.py:72-73 | for decreasing positive discount factors, P(t, T) lies strictly between 0 and 1 for sampled t < T |
| `ZcbCurves.ForwardRateOfFlatCurve` | interest_rate_prod.py:100-101 | on a flat yield curve every continuous forward rate equals the flat yield |
| `ZcbCurves.ForwardRateExample` | interest_rate_prod.py:100-101 | yields of 5 at one year and 6 at two years give a continuous forward rate of 7 between them |
| `Fras.ResolveTerms` | interest_rate_prod.py:126-147 | mixed types, an unusable type, a numeric tau ≠ (S − T)/365 and a maturity date not before the settlement date are each rejected; on success the dates give year fractions and tau from the day count, numbers are kept with dates shifted by whole days, and T < S with tau > 0 |
| `Fras.SimpleForward` | interest_rate_prod.py:155 | fails on an empty curve or a zero DF(S); otherwise DF(T) = DF(S)·(1 + tau·K), so K is the simple rate that carries DF(S) to DF(T) |
| `Fras.SimpleForwardPositive` | interest_rate_prod.py:155 | with decreasing positive discount factors the fair rate between two sampled times exists and is positive |
| `Fras.ConstructionError` | interest_rate_prod.py:126-155 | construction fails on mixed types, on a numeric tau ≠ (S − T)/365, on a maturity date not before settlement and on a curve whose reference date differs from the inception date; it succeeds exactly when all checks pass and the fair rate exists |
| `Fras.FairRate` | interest_rate_prod.py:151-155 | fails on an empty curve, and otherwise exactly when DF(S/365) = 0; on success DF(S/365) ≠ 0 and DF(T/365) = DF(S/365)·(1 + tau·K) on the construction curve, which fixes K as (DF(T/365)/DF(S/365) − 1)/tau |
| `Fras.Fra.constructor` | interest_rate_prod.py:110-155 | stores the resolved terms (tau replaced by the day count for dates, kept for numbers) and fixes K to the fair rate on the construction curve |
| `Fras.Fra.New` | interest_rate_prod.py:110-155 | construction fails exactly when a check fails, with that check's error, and otherwise returns a valid agreement with K the fair rate |
| `Fras.Fra.GetPrice` | interest_rate_prod.py:157-158 | returns the agreed rate |
| `Fras.Fra.SetPrice` | interest_rate_prod.py:160-161 | afterwards the agreed rate reads back as the value set, only K is modified, and the agreement stays valid |
| `Fras.Fra.Valuation` | interest_rate_prod.py:173-174 | on the curve's discount factors at (T − t)/365 and (S − t)/365, the value is N·(DF(T)/DF(S) − 1 − tau·K); it fails on an empty curve, and otherwise exactly when DF(S) = 0 |
| `Fras.FactorsGiveValue` | interest_rate_prod.py:173-174 | when DF(T) = DF(S)·(1 + tau·f), the long value N·tau·(f − K) equals N·(DF(T)/DF(S) − 1 − tau·K) |
| `Fras.ValueAtFairRateIsZero` | interest_rate_prod.py:155 | discount factors that carry the agreed rate exactly give a long value of zero |
| `Fras.LongValue` | interest_rate_prod.py:174 | the long value N·tau·(f − K) is zero exactly when f = K for a non-zero notional, and positive exactly when f > K for a positive notional |
| `Fras.Fra.GetValue` | interest_rate_prod.py:163-184 | a time of another type is rejected; a number after T is rejected; a date outside [inception, maturity date] is rejected; otherwise the contract is valued at that time on the given curve |
| `Fras.ValueAtInceptionIsZero` | interest_rate_prod.py:170-174 | valued at inception (as 0 or as the inception date) against the construction curve with K unchanged, the agreement is worth exactly 0 |

## Left out

- Transcendental maths (fractional powers, `exp`, `log`; lines 25, 27, 32, 34 and 99). These formulas are function values in `ZcbCurves.Transcendentals` that the caller supplies. Nothing is assumed about them. The yield ⇄ discount-factor round trip and the periodic forward rate are therefore not proved.
- `ZcbCurves.ZcbCurve.GetForwardRate`: the periodic-compounding branch is only the uninterpreted `periodicForward`. Only the continuous branch has a closed form.
- Floating point. Every number is an exact rational. The exact tau test of line 141 is therefore an exact comparison, and `np.log(np.exp(x))` is taken as `x`.
- Non-finite results. numpy returns inf or nan for a zero divisor (lines 73, 101, 155 and 173); no other numpy operation in the core raises on overflow. The model reports `NonFinite` instead of producing such a value. As a result, an FRA whose K would be infinite is not constructed.
- The inf and nan that the discount-factor conversions can produce (zero maturities, zero discount factors) are hidden inside the uninterpreted conversion functions.
- `ZcbCurves.ZcbCurve.constructor` and `ZcbCurves.ZcbCurve.New` require strictly increasing maturities, which the source never checks (lines 18, 46). For unsorted maturities numpy's interpolation is meaningless, and this model does not cover it.
- Date strings. `strptime` parsing, the `YYYY-MM-DD` format and `timedelta` range limits (lines 17, 58, 127-138 and 177) are replaced by integer day ordinals and day differences.
- `ZcbCurves.ResolveQueryTimes`: `OtherArg` stands only for values whose comparison with a number raises `TypeError`. The source never tests a time's type at lines 61-62 and 68-69, so it accepts any number-like value (numpy integer and float scalars, `Fraction`, `Decimal`) and computes with it as a number. The model has no case for such values. Subclasses of `int` and `float` such as `np.float64` are not modelled either: they pass the `isinstance` tests (lines 136, 170) but fail `type(T) == type(S)` against a plain `float` (line 126), and no single `TimeArg` case behaves that way at every use. `Fras.ResolveTerms` and `Fras.Fra.GetValue` share this limit.
- `Fras.Fra.GetValue`: for a numeric valuation time t, line 172 evaluates the date 365·t days after inception inside a diagnostic print, and that raises `OverflowError` when the date leaves the years 1 to 9999. The model has no calendar range, so it returns a value there instead of failing.
- Diagnostic output: every `print` and both `__str__` methods (lines 36, 50, 104, 143, 152-154, 172, 176, 183 and 187).
- The `**kwarg` pass-through of the FRA constructor, and its `compounding` parameter (default 1/2) and field, which nothing reads.
- numpy's `interp` options (`left`, `right`, `period`) and its nan handling, which the source does not use.
- An end-to-end FRA example on a semiannual curve (yields 5.0 and 5.5 at 0.5 and 1.0 years). Its discount factors come from fractional powers, so no concrete K is derived.

## Files

- `results.dfy`: the `Error` taxonomy, `Result` and `Option`.
- `times.dfy`: the actual/365 day count, `TimeArg` and whole-day date shifts.
- `interp.dfy`: numpy-style linear interpolation and its properties.
- `zcb_curve.dfy`: the curve class, its queries and their lemmas.
- `fra.dfy`: the forward-rate agreement class, its construction checks, pricing and valuation.

=== FILE: fra.dfy ===
/** The forward-rate agreement: construction with its checks and the inception fair rate K,
    reading and overriding K, and the mark-to-market value of the long position. */
module Fras {
  import opened Results
  import opened Times
  import opened LinearInterp
  import opened ZcbCurves

  /** Maturity and settlement resolved from the caller's arguments: as numbers (days when given
      as numbers, years when given as dates), as day ordinals, and the accrual fraction. */
  datatype Terms = Terms(maturity: real, settlement: real, maturityDay: int, settlementDay: int, tau: real)

  /** The argument checks of construction, in the source's order: same type, then the type
      dispatch with the accrual check for numbers, then maturity date before settlement date. */
  function ResolveTerms(inception: int, T: TimeArg, S: TimeArg, tau: real): (r: Result<Terms>)
    ensures !SameType(T, S) ==> r == Failure(TypeMismatch)
    ensures SameType(T, S) && T.OtherArg? ==> r == Failure(BadTimeType)
    ensures SameType(T, S) && T.IsNumber() && tau != (S.Number() - T.Number()) / DaysInYear ==> r == Failure(TauMismatch)
    ensures SameType(T, S) && T.DateArg? ==> (r.Success? <==> T.day < S.day)
    ensures SameType(T, S) && T.IsNumber() && tau == (S.Number() - T.Number()) / DaysInYear ==>
              (r.Success? <==> ShiftDays(inception, T.Number()) < ShiftDays(inception, S.Number()))
    ensures r.Failure? && SameType(T, S) && (T.DateArg? || (T.IsNumber() && tau == (S.Number() - T.Number()) / DaysInYear)) ==>
              r == Failure(TimesOutOfOrder)
    ensures r.Success? ==> r.value.maturityDay < r.value.settlementDay && r.value.maturity < r.value.settlement && r.value.tau > 0.0
    ensures r.Success? && T.DateArg? ==>
              r.value == Terms(YearFraction(inception, T.day), YearFraction(inception, S.day), T.day, S.day, YearFraction(T.day, S.day))
    ensures r.Success? && T.IsNumber() ==>
              r.value == Terms(T.Number(), S.Number(), ShiftDays(inception, T.Number()), ShiftDays(inception, S.Number()), tau)
  {
    if !SameType(T, S) then Failure(TypeMismatch)
    else
      var terms :-
        match T
        case DateArg(dT) =>
          Success(Terms(YearFraction(inception, dT), YearFraction(inception, S.day), dT, S.day, YearFraction(dT, S.day)))
        case OtherArg(_) => Failure(BadTimeType)
        case _ =>
          if tau == (S.Number() - T.Number()) / DaysInYear then
            Success(Terms(T.Number(), S.Number(), ShiftDays(inception, T.Number()), ShiftDays(inception, S.Number()), tau))
          else Failure(TauMismatch);
      if terms.maturityDay < terms.settlementDay then Success(terms) else Failure(TimesOutOfOrder)
  }

  lemma SimpleRateIdentity(dA: real, dB: real, tau: real)
    requires dB != 0.0 && tau != 0.0
    ensures dB * (1.0 + tau * ((dA / dB - 1.0) / tau)) == dA
  {
    assert tau * ((dA / dB - 1.0) / tau) == dA / dB - 1.0;
  }

  /** The simple-interest forward rate over an accrual of `tau` years between the curve times a
      and b: (DF(a)/DF(b) − 1)/tau. */
  function SimpleForward(df: Interpolator, a: real, b: real, tau: real): (r: Result<real>)
    requires df.Valid() && tau > 0.0
    ensures |df.knots| == 0 <==> r == Failure(EmptyCurve)
    ensures |df.knots| > 0 ==> (r.Success? <==> Interp(df.knots, df.values, b) != 0.0)
    ensures r.Failure? && |df.knots| > 0 ==> r == Failure(NonFinite)
    ensures r.Success? ==> Interp(df.knots, df.values, a) == Interp(df.knots, df.values, b) * (1.0 + tau * r.value)
  {
    var dA :- df.At(a);
    var dB := df.At(b).value;
    if dB == 0.0 then Failure(NonFinite)
    else
      SimpleRateIdentity(dA, dB, tau);
      Success((dA / dB - 1.0) / tau)
  }

  lemma RatioAboveOne(dA: real, dB: real, tau: real)
    requires 0.0 < dB < dA && tau > 0.0
    ensures (dA / dB - 1.0) / tau > 0.0
  {
    assert dB / dB == 1.0;
    assert dA / dB > dB / dB;
  }

  /** When discount factors fall with maturity and stay positive, the forward rate between two
      sampled times is positive. */
  lemma SimpleForwardPositive(df: Interpolator, a: real, b: real, tau: real)
    requires df.Valid() && tau > 0.0 && |df.knots| > 0
    requires StrictlyDecreasing(df.values) && df.values[|df.values| - 1] > 0.0
    requires df.knots[0] <= a < b <= df.knots[|df.knots| - 1]
    ensures SimpleForward(df, a, b, tau).Success? && SimpleForward(df, a, b, tau).value > 0.0
  {
    var xs, ys := df.knots, df.values;
    InterpStrictlyDecreasing(xs, ys, a, b);
    if b < xs[|xs| - 1] {
      InterpStrictlyDecreasing(xs, ys, b, xs[|xs| - 1]);
    }
    RatioAboveOne(Interp(xs, ys, a), Interp(xs, ys, b), tau);
  }

  /** Why construction fails, if it does: the argument checks, then the alignment of the curve's
      reference date with the inception date, then the fair-rate computation itself. */
  function ConstructionError(t: int, T: TimeArg, S: TimeArg, tau: real, zcb: ZcbCurve): (r: Option<Error>)
    requires zcb.Valid()
    ensures !SameType(T, S) ==> r == Some(TypeMismatch)
    ensures SameType(T, S) && T.IsNumber() && tau != (S.Number() - T.Number()) / DaysInYear ==> r == Some(TauMismatch)
    ensures SameType(T, S) && T.DateArg? && S.day <= T.day ==> r == Some(TimesOutOfOrder)
    ensures (SameType(T, S) && T.IsNumber() && tau == (S.Number() - T.Number()) / DaysInYear
             && ShiftDays(t, S.Number()) <= ShiftDays(t, T.Number())) ==> r == Some(TimesOutOfOrder)
    ensures ResolveTerms(t, T, S, tau).Success? && t != zcb.t0 ==> r == Some(CurveMisaligned)
    ensures r == None <==>
              && ResolveTerms(t, T, S, tau).Success?
              && t == zcb.t0
              && FairRate(zcb, ResolveTerms(t, T, S, tau).value).Success?
  {
    match ResolveTerms(t, T, S, tau)
    case Failure(e) => Some(e)
    case Success(terms) =>
      if t != zcb.t0 then Some(CurveMisaligned)
      else if FairRate(zcb, terms).Failure? then Some(FairRate(zcb, terms).error)
      else None
  }

  /** The fair rate fixed at inception, K = (DF(T/365)/DF(S/365) − 1)/tau on the construction
      curve, with T and S as resolved (so a date-given T, already in years, is divided again). */
  function FairRate(zcb: ZcbCurve, terms: Terms): (r: Result<real>)
    requires zcb.Valid() && terms.tau > 0.0
    ensures |zcb.maturities| == 0 <==> r == Failure(EmptyCurve)
    ensures |zcb.maturities| > 0 ==>
              (r.Success? <==> Interp(zcb.maturities, zcb.discounts, terms.settlement / DaysInYear) != 0.0)
    ensures r.Success? ==>
              var (a, b) := (terms.maturity / DaysInYear, terms.settlement / DaysInYear);
              && |zcb.maturities| > 0
              && Interp(zcb.maturities, zcb.discounts, b) != 0.0
              && Interp(zcb.maturities, zcb.discounts, a) == Interp(zcb.maturities, zcb.discounts, b) * (1.0 + terms.tau * r.value)
  {
    SimpleForward(zcb.DiscountCurve(), terms.maturity / DaysInYear, terms.settlement / DaysInYear, terms.tau)
  }

  class Fra {
    const inception: int        // the inception date, day ordinal
    const tau: real             // accrual fraction in years
    const notional: real
    const curve: ZcbCurve       // the curve the fair rate was fixed on
    const maturity: real        // T: days when given as a number, years when given as a date
    const settlement: real      // S, in the same unit as T
    const maturityDay: int
    const settlementDay: int
    var K: real                 // the agreed (strike) rate

    /** The stored maturity, settlement and accrual fraction as one value. */
    function Stored(): Terms {
      Terms(maturity, settlement, maturityDay, settlementDay, tau)
    }

    ghost predicate Valid() {
      && curve.Valid()
      && inception == curve.t0
      && maturityDay < settlementDay && maturity < settlement && tau > 0.0
      && FairRate(curve, Stored()).Success?
    }

    /** Construction once every check has passed: the resolved terms are stored, the accrual
        fraction is replaced by the day count when the dates were given, and K is the fair rate. */
    constructor (t: int, T: TimeArg, S: TimeArg, tau0: real, N: real, zcb: ZcbCurve)
      requires zcb.Valid()
      requires ConstructionError(t, T, S, tau0, zcb) == None
      ensures Valid()
      ensures inception == t && notional == N && curve == zcb
      ensures Stored() == ResolveTerms(t, T, S, tau0).value
      ensures T.IsNumber() ==> tau == tau0
      ensures K == FairRate(zcb, Stored()).value
    {
      inception := t;
      tau := tau0;
      notional := N;
      curve := zcb;
      if T.DateArg? {
        maturityDay := T.day;
        settlementDay := S.day;
        maturity := YearFraction(t, T.day);
        settlement := YearFraction(t, S.day);
        tau := YearFraction(T.day, S.day);
      } else {
        maturityDay := ShiftDays(t, T.Number());
        settlementDay := ShiftDays(t, S.Number());
        maturity := T.Number();
        settlement := S.Number();
      }
      new;
      K := SimpleForward(curve.DiscountCurve(), maturity / DaysInYear, settlement / DaysInYear, tau).value;
    }

    /** Construction with its checks: fails exactly when one of them fails, with that error. */
    static method New(t: int, T: TimeArg, S: TimeArg, tau: real, N: real, zcb: ZcbCurve) returns (r: Result<Fra>)
      requires zcb.Valid()
      ensures r.Failure? <==> ConstructionError(t, T, S, tau, zcb).Some?
      ensures r.Failure? ==> r.error == ConstructionError(t, T, S, tau, zcb).value
      ensures r.Success? ==>
                && fresh(r.value) && r.value.Valid()
                && r.value.inception == t && r.value.notional == N && r.value.curve == zcb
                && r.value.Stored() == ResolveTerms(t, T, S, tau).value
                && r.value.K == FairRate(zcb, r.value.Stored()).value
    {
      var err := ConstructionError(t, T, S, tau, zcb);
      if err.Some? {
        return Failure(err.value);
      }
      var fra := new Fra(t, T, S, tau, N, zcb);
      return Success(fra);
    }

    function GetPrice(): (k: real)
      reads this
      ensures k == K
    {
      K
    }

    /** Overrides the agreed rate; nothing else changes. */
    method SetPrice(k: real)
      requires Valid()
      modifies this`K
      ensures Valid() && GetPrice() == k
    {
      K := k;
    }

    /** The long position's value at valuation time tv (same unit as T and S) against the
        discount interpolator df: N·tau·(f − K) with f the simple forward rate over [T, S] seen
        from tv, which is N·(DF(T)/DF(S) − 1 − tau·K) in terms of the curve. */
    function Valuation(df: Interpolator, tv: real): (r: Result<real>)
      requires tau > 0.0 && df.Valid()
      reads this
      ensures |df.knots| == 0 <==> r == Failure(EmptyCurve)
      ensures |df.knots| > 0 ==> (r.Success? <==> Interp(df.knots, df.values, (settlement - tv) / DaysInYear) != 0.0)
      ensures r.Failure? && |df.knots| > 0 ==> r == Failure(NonFinite)
      ensures r.Success? ==>
                var dT := Interp(df.knots, df.values, (maturity - tv) / DaysInYear);
                var dS := Interp(df.knots, df.values, (settlement - tv) / DaysInYear);
                dS != 0.0 && r.value == notional * (dT / dS - 1.0 - tau * K)
    {
      var sf := SimpleForward(df, (maturity - tv) / DaysInYear, (settlement - tv) / DaysInYear, tau);
      if sf.Failure? then Failure(sf.error)
      else
        FactorsGiveValue(notional, tau, sf.value, K, Interp(df.knots, df.values, (maturity - tv) / DaysInYear),
                         Interp(df.knots, df.values, (settlement - tv) / DaysInYear));
        Success(LongValue(notional, tau, sf.value, K))
    }

    /** `get_value(t, ZCB)`: checks the valuation time and values the contract on the given curve. */
    function GetValue(t: TimeArg, zcb: ZcbCurve): (r: Result<real>)
      requires Valid() && zcb.Valid()
      reads this
      ensures t.OtherArg? ==> r == Failure(BadTimeType)
      ensures t.IsNumber() && maturity < t.Number() ==> r == Failure(ValuationAfterMaturity)
      ensures t.IsNumber() && t.Number() <= maturity ==> r == Valuation(zcb.DiscountCurve(), t.Number())
      ensures t.DateArg? && !(inception <= t.day <= maturityDay) ==> r == Failure(ValuationOutsideWindow)
      ensures t.DateArg? && inception <= t.day <= maturityDay ==>
                r == Valuation(zcb.DiscountCurve(), YearFraction(inception, t.day))
    {
      var df := zcb.DiscountCurve();
      match t
      case DateArg(d) =>
        var tv := YearFraction(inception, d);
        if inception <= d <= maturityDay then Valuation(df, tv) else Failure(ValuationOutsideWindow)
      case OtherArg(_) => Failure(BadTimeType)
      case _ =>
        if t.Number() <= maturity then Valuation(df, t.Number()) else Failure(ValuationAfterMaturity)
    }
  }

  /** The value N·tau·(f − K) of the long side of an agreement at rate K when the market
      forward rate is f: for a non-zero notional it is zero exactly when f = K, and positive
      exactly when a positive notional meets a forward above K. */
  function LongValue(notional: real, tau: real, f: real, k: real): (v: real)
    requires tau > 0.0
    ensures notional != 0.0 ==> (v == 0.0 <==> f == k)
    ensures notional > 0.0 ==> (v > 0.0 <==> f > k)
  {
    SignOfProduct(notional, tau, f - k);
    notional * tau * (f - k)
  }

  lemma SignOfProduct(n: real, tau: real, x: real)
    requires tau > 0.0
    ensures n != 0.0 ==> (n * tau * x == 0.0 <==> x == 0.0)
    ensures n > 0.0 ==> (n * tau * x > 0.0 <==> x > 0.0)
  {
    if n > 0.0 {
      assert n * tau > 0.0;
    }
    if n != 0.0 {
      assert n * tau != 0.0;
    }
  }

  /** The long value written through the discount factors the forward rate came from. */
  lemma FactorsGiveValue(n: real, tau: real, f: real, k: real, dA: real, dB: real)
    requires tau > 0.0 && dB != 0.0 && dA == dB * (1.0 + tau * f)
    ensures LongValue(n, tau, f, k) == n * (dA / dB - 1.0 - tau * k)
  {
    QuotientOfProduct(dA, dB, 1.0 + tau * f);
    assert tau * f - tau * k == tau * (f - k);
    assert n * tau * (f - k) == n * (tau * (f - k));
  }

  lemma QuotientOfProduct(a: real, d: real, g: real)
    requires d != 0.0 && a == d * g
    ensures a / d == g
  {
    DivMul(a, d);
    assert (a / d - g) * d == 0.0;
  }

  /** Discount factors that reproduce the agreed rate exactly give a worthless position. */
  lemma ValueAtFairRateIsZero(n: real, tau: real, k: real, dA: real, dB: real)
    requires dB != 0.0 && dA == dB * (1.0 + tau * k)
    ensures n * (dA / dB - 1.0 - tau * k) == 0.0
  {
    QuotientOfProduct(dA, dB, 1.0 + tau * k);
  }

  /** Valued at its inception against the curve it was priced on, with K unchanged, the
      agreement is worth exactly zero, whether the valuation time is given as the number 0 or
      as the inception date. */
  lemma ValueAtInceptionIsZero(fra: Fra)
    requires fra.Valid()
    requires fra.K == FairRate(fra.curve, fra.Stored()).value
    ensures 0.0 <= fra.maturity ==> fra.GetValue(IntArg(0), fra.curve) == Success(0.0)
    ensures fra.inception <= fra.maturityDay ==> fra.GetValue(DateArg(fra.inception), fra.curve) == Success(0.0)
  {
    var df := fra.curve.DiscountCurve();
    var a, b := fra.maturity / DaysInYear, fra.settlement / DaysInYear;
    assert (fra.maturity - 0.0) / DaysInYear == a && (fra.settlement - 0.0) / DaysInYear == b;
    assert YearFraction(fra.inception, fra.inception) == 0.0;
    ValueAtFairRateIsZero(fra.notional, fra.tau, fra.K, Interp(df.knots, df.values, a), Interp(df.knots, df.values, b));
  }
}

=== FILE: interp.dfy ===
/** Piecewise-linear interpolation with numpy's `interp` semantics over strictly increasing
    sample points: exact at the knots, linear between neighbours, clamped to the end values
    outside the sampled range. */
module LinearInterp {

  predicate StrictlyIncreasing(xs: seq<real>) {
    forall i, j :: 0 <= i < j < |xs| ==> xs[i] < xs[j]
  }

  predicate StrictlyDecreasing(ys: seq<real>) {
    forall i, j :: 0 <= i < j < |ys| ==> ys[i] > ys[j]
  }

  /** The point at abscissa x on the straight line through (x0, y0) and (x1, y1). */
  function Blend(x0: real, y0: real, x1: real, y1: real, x: real): (r: real)
    requires x0 < x1
    ensures x == x0 ==> r == y0
    ensures x == x1 ==> r == y1
  {
    var slope := (y1 - y0) / (x1 - x0);
    slope * (x - x0) + y0
  }

  /** np.interp(x, xs, ys) for strictly increasing, non-empty xs. */
  function Interp(xs: seq<real>, ys: seq<real>, x: real): (r: real)
    requires |xs| == |ys| > 0
    requires StrictlyIncreasing(xs)
    ensures x <= xs[0] ==> r == ys[0]
    ensures xs[|xs| - 1] <= x ==> r == ys[|ys| - 1]
    decreases |xs|, 1
  {
    if x < xs[0] || |xs| == 1 then ys[0]
    else InterpFrom(xs, ys, x)
  }

  /** np.interp(x, xs, ys) at or beyond the first of at least two knots: the blend of the
      first segment, or the interpolant over the remaining knots. */
  function InterpFrom(xs: seq<real>, ys: seq<real>, x: real): (r: real)
    requires |xs| == |ys| > 1
    requires StrictlyIncreasing(xs)
    requires xs[0] <= x
    ensures xs[|xs| - 1] <= x ==> r == ys[|ys| - 1]
    decreases |xs|, 0
  {
    if x < xs[1] then Blend(xs[0], ys[0], xs[1], ys[1], x)
    else Interp(xs[1..], ys[1..], x)
  }

  lemma TailIncreasing(xs: seq<real>)
    requires |xs| > 0 && StrictlyIncreasing(xs)
    ensures StrictlyIncreasing(xs[1..])
  {
  }

  /** At every knot the interpolant returns the stored value exactly. */
  lemma {:induction false} InterpAtKnot(xs: seq<real>, ys: seq<real>, k: nat)
    requires |xs| == |ys| && k < |xs|
    requires StrictlyIncreasing(xs)
    ensures Interp(xs, ys, xs[k]) == ys[k]
    decreases k
  {
    if k > 0 {
      TailIncreasing(xs);
      InterpAtKnot(xs[1..], ys[1..], k - 1);
      assert xs[1..][k - 1] == xs[k];
    }
  }

  /** Strictly between two adjacent knots the interpolant is their linear blend. */
  lemma {:induction false} InterpBetween(xs: seq<real>, ys: seq<real>, k: nat, x: real)
    requires |xs| == |ys| && k + 1 < |xs|
    requires StrictlyIncreasing(xs)
    requires xs[k] < x < xs[k + 1]
    ensures Interp(xs, ys, x) == Blend(xs[k], ys[k], xs[k + 1], ys[k + 1], x)
    decreases k
  {
    if k > 0 {
      TailIncreasing(xs);
      InterpBetween(xs[1..], ys[1..], k - 1, x);
      assert xs[1..][k - 1] == xs[k] && xs[1..][k] == xs[k + 1];
    }
  }

  /** A flat set of values interpolates to that same value everywhere. */
  lemma {:induction false} InterpFlat(xs: seq<real>, ys: seq<real>, c: real, x: real)
    requires |xs| == |ys| > 0
    requires StrictlyIncreasing(xs)
    requires forall i :: 0 <= i < |ys| ==> ys[i] == c
    ensures Interp(xs, ys, x) == c
    decreases |xs|
  {
    if !(x < xs[0] || |xs| == 1) && !(x < xs[1]) {
      TailIncreasing(xs);
      InterpFlat(xs[1..], ys[1..], c, x);
    }
  }

  lemma MulNegative(s: real, d: real)
    requires s < 0.0 && d > 0.0
    ensures s * d < 0.0
  {
  }

  lemma NegativeOverPositive(n: real, d: real)
    requires n < 0.0 && d > 0.0
    ensures n / d < 0.0
  {
    assert (n / d) * d == n;
  }

  lemma {:induction false} BlendDecreasing(x0: real, y0: real, x1: real, y1: real, a: real, b: real)
    requires x0 < x1 && y1 < y0 && a < b
    ensures Blend(x0, y0, x1, y1, a) > Blend(x0, y0, x1, y1, b)
  {
    var slope := (y1 - y0) / (x1 - x0);
    NegativeOverPositive(y1 - y0, x1 - x0);
    MulNegative(slope, b - a);
    calc {
      Blend(x0, y0, x1, y1, b);
    ==
      slope * (b - x0) + y0;
    ==
      slope * (a - x0) + slope * (b - a) + y0;
    <
      slope * (a - x0) + y0;
    ==
      Blend(x0, y0, x1, y1, a);
    }
  }

  /** With decreasing values, nothing at or beyond the first knot exceeds the first value. */
  lemma {:induction false} InterpAtMostFirst(xs: seq<real>, ys: seq<real>, x: real)
    requires |xs| == |ys| > 0
    requires StrictlyIncreasing(xs) && StrictlyDecreasing(ys)
    requires xs[0] <= x
    ensures Interp(xs, ys, x) <= ys[0]
    decreases |xs|
  {
    if |xs| > 1 {
      if x < xs[1] {
        if x > xs[0] {
          BlendDecreasing(xs[0], ys[0], xs[1], ys[1], xs[0], x);
        }
      } else {
        TailIncreasing(xs);
        InterpAtMostFirst(xs[1..], ys[1..], x);
      }
    }
  }

  /** Over decreasing values the interpolant is strictly decreasing inside the sampled range. */
  lemma {:induction false} InterpStrictlyDecreasing(xs: seq<real>, ys: seq<real>, a: real, b: real)
    requires |xs| == |ys| > 0
    requires StrictlyIncreasing(xs) && StrictlyDecreasing(ys)
    requires xs[0] <= a < b <= xs[|xs| - 1]
    ensures Interp(xs, ys, a) > Interp(xs, ys, b)
    decreases |xs|
  {
    TailIncreasing(xs);
    if a < xs[1] {
      if b < xs[1] {
        BlendDecreasing(xs[0], ys[0], xs[1], ys[1], a, b);
      } else {
        BlendDecreasing(xs[0], ys[0], xs[1], ys[1], a, xs[1]);
        InterpAtMostFirst(xs[1..], ys[1..], b);
      }
    } else {
      InterpStrictlyDecreasing(xs[1..], ys[1..], a, b);
    }
  }
}

=== FILE: results.dfy ===
/** Failure signals of the curve and FRA operations, and the Result/Option wrappers that carry them. */
module Results {

  /** Every way an operation of the curve or of the FRA can fail. Most are Python assertion
      failures; `EmptyCurve` is numpy's error for interpolating over no sample points,
      `NonFinite` a numpy division that silently yields inf or nan, and `ZeroDivision` a
      Python float division by zero. */
  datatype Error =
    | LengthMismatch          // maturities and rates differ in length
    | UnknownRateKind         // rate kind is neither "yield" nor "discount factor"
    | UnknownRepresentation   // requested representation is neither of the two
    | NotCallable             // an unsupported interpolation gave no function, and it was called
    | EmptyCurve              // interpolation over an empty set of maturities
    | NonFinite               // a division whose divisor is zero, giving inf or nan
    | ZeroDivision            // a Python float division by zero
    | NegativeTime            // a numeric time below zero
    | DateBeforeReference     // a date before the curve's reference date
    | TimesOutOfOrder         // start time not before end time
    | UnboundDate             // end given as a date while start was a number
    | BadTimeType             // a time argument that is neither a date nor a number
    | TypeMismatch            // maturity and settlement of different types
    | TauMismatch             // supplied accrual fraction disagrees with the day count
    | CurveMisaligned         // curve reference date differs from the FRA inception date
    | ValuationAfterMaturity  // numeric valuation time after the maturity
    | ValuationOutsideWindow  // valuation date outside [inception, maturity date]

  datatype Result<+T> = Success(value: T) | Failure(error: Error) {
    predicate IsFailure() { Failure? }

    function PropagateFailure<U>(): Result<U>
      requires Failure?
    {
      Failure(error)
    }

    function Extract(): T
      requires Success?
    {
      value
    }
  }

  datatype Option<+T> = None | Some(value: T)
}

=== FILE: times.dfy ===
/** Day counting and the time arguments the public operations accept. */
module Times {

  /** The actual/365 day count shared by the curve and the FRA. */
  const DaysInYear: real := 365.0

  /** A time argument as the caller may pass it: a calendar date (as a day ordinal),
      a Python int, a Python float, or a value of some other type that does not compare with a
      number, named by its type. */
  datatype TimeArg =
    | DateArg(day: int)
    | IntArg(n: int)
    | FloatArg(x: real)
    | OtherArg(typeName: string)
  {
    predicate IsNumber() { IntArg? || FloatArg? }

    function Number(): real
      requires IsNumber()
    {
      if IntArg? then n as real else x
    }
  }

  /** Python's `type(a) == type(b)`: two arguments of the same kind, and for other types the
      same type name. */
  predicate SameType(a: TimeArg, b: TimeArg): (same: bool)
    ensures same ==> a.DateArg? == b.DateArg? && a.IntArg? == b.IntArg? && a.FloatArg? == b.FloatArg?
    ensures (a.DateArg? && b.DateArg?) || (a.IntArg? && b.IntArg?) || (a.FloatArg? && b.FloatArg?) ==> same
    ensures a.OtherArg? && b.OtherArg? ==> (same <==> a.typeName == b.typeName)
  {
    match (a, b)
    case (DateArg(_), DateArg(_)) => true
    case (IntArg(_), IntArg(_)) => true
    case (FloatArg(_), FloatArg(_)) => true
    case (OtherArg(p), OtherArg(q)) => p == q
    case _ => false
  }

  /** The year fraction from one date to another under actual/365. */
  function YearFraction(fromDay: int, toDay: int): (y: real)
    ensures fromDay <= toDay <==> 0.0 <= y
    ensures fromDay < toDay <==> 0.0 < y
  {
    (toDay - fromDay) as real / DaysInYear
  }

  /** A `timedelta` holds whole microseconds. */
  const MicrosPerDay: int := 86_400_000_000

  /** Rounding to the nearest integer, ties to the even neighbour. The two clauses pin the
      result down: within one half of x, and even when x lies exactly halfway. */
  function RoundHalfEven(x: real): (n: int)
    ensures -0.5 <= n as real - x <= 0.5
    ensures (n as real - x == 0.5 || x - n as real == 0.5) ==> n % 2 == 0
  {
    var f := x.Floor;
    var frac := x - f as real;
    if frac < 0.5 then f
    else if frac > 0.5 then f + 1
    else if f % 2 == 0 then f
    else f + 1
  }

  /** Any integer within one half of x, and even on a tie, is the rounding of x. */
  lemma RoundHalfEvenUnique(x: real, m: int)
    requires -0.5 <= m as real - x <= 0.5
    requires (m as real - x == 0.5 || x - m as real == 0.5) ==> m % 2 == 0
    ensures m == RoundHalfEven(x)
  {
    var n := RoundHalfEven(x);
    assert -1 <= m - n <= 1;
    assert m - n == 1 ==> m as real - x == 0.5 && x - n as real == 0.5;
    assert n - m == 1 ==> n as real - x == 0.5 && x - m as real == 0.5;
  }

  /** Adding `timedelta(days = d)` to a date: d is first rounded to whole microseconds (ties to
      even), and the date then moves by the whole days of that duration, rounded down. */
  function ShiftDays(day: int, d: real): (r: int)
    ensures (r - day) * MicrosPerDay <= RoundHalfEven(d * MicrosPerDay as real) < (r - day + 1) * MicrosPerDay
  {
    day + RoundHalfEven(d * MicrosPerDay as real) / MicrosPerDay
  }

  /** The shift lands within half a microsecond of the whole day at or below the exact sum:
      never more than that above day + d, and never a full day or more below it. */
  lemma ShiftDaysNearFloor(day: int, d: real)
    ensures (ShiftDays(day, d) - day) as real <= d + 0.5 / MicrosPerDay as real
    ensures d - 0.5 / MicrosPerDay as real < (ShiftDays(day, d) - day + 1) as real
  {
    var k := ShiftDays(day, d) - day;
    var us := RoundHalfEven(d * MicrosPerDay as real);
    var m := MicrosPerDay as real;
    assert (k * MicrosPerDay) as real <= us as real <= d * m + 0.5;
    assert k as real * m <= d * m + 0.5;
    assert (k as real - d) * m <= 0.5;
    assert us as real < ((k + 1) * MicrosPerDay) as real;
    assert d * m - 0.5 < (k as real + 1.0) * m;
    assert (d - k as real - 1.0) * m < 0.5;
  }

  /** A whole number of days moves the date by exactly that many days. */
  lemma {:induction false} ShiftWholeDays(day: int, n: int)
    ensures ShiftDays(day, n as real) == day + n
  {
    RoundHalfEvenUnique(n as real * MicrosPerDay as real, n * MicrosPerDay);
  }

  /** A day count a quarter of a microsecond short of one day rounds up to a full day. */
  lemma ShiftJustBelowOneDay(day: int)
    ensures ShiftDays(day, 1.0 - 1.0 / 345_600_000_000.0) == day + 1
  {
    var x := (1.0 - 1.0 / 345_600_000_000.0) * MicrosPerDay as real;
    assert x == 86_399_999_999.75;
    RoundHalfEvenUnique(x, MicrosPerDay);
  }
}

=== FILE: zcb_curve.dfy ===
/** The zero-coupon discount curve: construction from yields or discount factors, the
    linear interpolators it hands out, the forward discount factor P(t, T) and the
    continuously compounded forward rate. */
module ZcbCurves {
  import opened Results
  import opened Times
  import opened LinearInterp

  /** The transcendental formulas of the curve (fractional powers, exp and log), supplied by the
      caller as uninterpreted functions; nothing is assumed about them. */
  datatype Transcendentals = Transcendentals(
    periodicDiscount: (real, real, real) -> real,     // (yield %, maturity, frequency) to discount factor
    continuousDiscount: (real, real) -> real,         // (yield %, maturity) to discount factor
    periodicYield: (real, real, real) -> real,        // (discount factor, maturity, frequency) to yield
    continuousYield: (real, real) -> real,            // (discount factor, maturity) to yield
    periodicForward: (real, real, real, real, real) -> real  // (y(t), y(T), t, T, frequency) to forward rate
  )

  /** The names the source uses for its interpolation method and its two rate kinds. */
  const LinearMethod: string := "linear"
  const YieldKind: string := "yield"
  const DiscountFactorKind: string := "discount factor"

  datatype RateKind = Yield | DiscountFactor

  /** The two input checks of the constructor: equal lengths, then a recognised rate kind. */
  function CheckCurveInputs(ts: seq<real>, rs: seq<real>, kind: string): (r: Result<RateKind>)
    ensures |ts| != |rs| ==> r == Failure(LengthMismatch)
    ensures |ts| == |rs| && kind != YieldKind && kind != DiscountFactorKind ==> r == Failure(UnknownRateKind)
    ensures r == Success(Yield) <==> |ts| == |rs| && kind == YieldKind
    ensures r == Success(DiscountFactor) <==> |ts| == |rs| && kind == DiscountFactorKind
  {
    if |ts| != |rs| then Failure(LengthMismatch)
    else if kind == YieldKind then Success(Yield)
    else if kind == DiscountFactorKind then Success(DiscountFactor)
    else Failure(UnknownRateKind)
  }

  /** Discount factors derived element-wise from yields, in the periodic or continuous convention. */
  function YieldsToDiscounts(m: Transcendentals, ts: seq<real>, rs: seq<real>, compounding: real): (dcf: seq<real>)
    requires |ts| == |rs|
    ensures |dcf| == |ts|
    ensures compounding != 0.0 ==> forall i :: 0 <= i < |ts| ==> dcf[i] == m.periodicDiscount(rs[i], ts[i], compounding)
    ensures compounding == 0.0 ==> forall i :: 0 <= i < |ts| ==> dcf[i] == m.continuousDiscount(rs[i], ts[i])
  {
    if compounding != 0.0 then seq(|ts|, i requires 0 <= i < |ts| => m.periodicDiscount(rs[i], ts[i], compounding))
    else seq(|ts|, i requires 0 <= i < |ts| => m.continuousDiscount(rs[i], ts[i]))
  }

  /** Yields backed out element-wise from discount factors, in the periodic or continuous convention. */
  function DiscountsToYields(m: Transcendentals, ts: seq<real>, dcf: seq<real>, compounding: real): (rs: seq<real>)
    requires |ts| == |dcf|
    ensures |rs| == |ts|
    ensures compounding != 0.0 ==> forall i :: 0 <= i < |ts| ==> rs[i] == m.periodicYield(dcf[i], ts[i], compounding)
    ensures compounding == 0.0 ==> forall i :: 0 <= i < |ts| ==> rs[i] == m.continuousYield(dcf[i], ts[i])
  {
    if compounding != 0.0 then seq(|ts|, i requires 0 <= i < |ts| => m.periodicYield(dcf[i], ts[i], compounding))
    else seq(|ts|, i requires 0 <= i < |ts| => m.continuousYield(dcf[i], ts[i]))
  }

  /** A linear interpolator as handed out by the curve: the function t |-> np.interp(t, knots, values). */
  datatype Interpolator = Linear(knots: seq<real>, values: seq<real>) {
    ghost predicate Valid() {
      |knots| == |values| && StrictlyIncreasing(knots)
    }

    /** Calling the interpolator at x; numpy refuses an empty set of sample points. */
    function At(x: real): (r: Result<real>)
      requires Valid()
      ensures |knots| == 0 <==> r == Failure(EmptyCurve)
      ensures r.Success? ==> r.value == Interp(knots, values, x)
    {
      if |knots| == 0 then Failure(EmptyCurve) else Success(Interp(knots, values, x))
    }
  }

  /** Resolves the (t, T) arguments of the discount-factor and forward-rate queries to year
      offsets from the reference date `t0`, with the source's checks in the source's order. */
  function ResolveQueryTimes(t0: int, t: TimeArg, T: TimeArg): (r: Result<(real, real)>)
    ensures t.DateArg? && t.day < t0 ==> r == Failure(DateBeforeReference)
    ensures t.IsNumber() && t.Number() < 0.0 ==> r == Failure(NegativeTime)
    ensures t.OtherArg? ==> r == Failure(BadTimeType)
    ensures r.Success? ==> 0.0 <= r.value.0 <= r.value.1
    ensures r.Success? && t.DateArg? ==> r.value.0 == YearFraction(t0, t.day)
    ensures r.Success? && t.IsNumber() ==> r.value.0 == t.Number()
    ensures r.Success? && T.DateArg? ==> t.DateArg? && r.value.1 == YearFraction(t0, T.day)
    ensures r.Success? && T.IsNumber() ==> r.value.1 == T.Number() && r.value.0 < r.value.1
    ensures t.IsNumber() && 0.0 <= t.Number() && T.IsNumber() ==>
              (r.Success? <==> t.Number() < T.Number())
    ensures t.IsNumber() && 0.0 <= t.Number() && T.DateArg? ==> r == Failure(UnboundDate)
    ensures t.DateArg? && t0 <= t.day && T.DateArg? ==> (r.Success? <==> t.day <= T.day)
    ensures t.DateArg? && t0 <= t.day && T.IsNumber() ==> (r.Success? <==> YearFraction(t0, t.day) < T.Number())
    ensures ((t.DateArg? && t0 <= t.day) || (t.IsNumber() && 0.0 <= t.Number())) && T.OtherArg? ==> r == Failure(BadTimeType)
    ensures (&& r.Failure?
             && ((t.DateArg? && t0 <= t.day) || (t.IsNumber() && 0.0 <= t.Number()))
             && (T.IsNumber() || (T.DateArg? && t.DateArg?))) ==> r == Failure(TimesOutOfOrder)
  {
    var tYears :-
      match t
      case DateArg(d) => if t0 <= d then Success(YearFraction(t0, d)) else Failure(DateBeforeReference)
      case OtherArg(_) => Failure(BadTimeType)
      case _ => if t.Number() >= 0.0 then Success(t.Number()) else Failure(NegativeTime);
    match T
    case DateArg(dT) =>
      if !t.DateArg? then Failure(UnboundDate)
      else if t.day <= dT then Success((tYears, YearFraction(t0, dT)))
      else Failure(TimesOutOfOrder)
    case OtherArg(_) => Failure(BadTimeType)
    case _ => if tYears < T.Number() then Success((tYears, T.Number())) else Failure(TimesOutOfOrder)
  }

  lemma DivMul(a: real, b: real)
    requires b != 0.0
    ensures (a / b) * b == a
  {
  }

  /** The continuously compounded forward rate between t and T from the yields y(t) and y(T):
      log(exp(y(T)·T − y(t)·t))/(T − t), which is exactly (y(T)·T − y(t)·t)/(T − t). Growing at
      y(t) up to t and then at the forward rate up to T accrues the same as growing at y(T) up to T. */
  function ContinuousForward(yt: real, yT: real, t: real, T: real): (f: real)
    requires t != T
    ensures yt * t + f * (T - t) == yT * T
    ensures yt == yT ==> f == yT
  {
    DivMul(yT * T - yt * t, T - t);
    (yT * T - yt * t) / (T - t)
  }

  /** A zero-coupon curve anchored at day `t0`. Yields and discount factors are both kept,
      parallel to the maturities, and nothing changes them after construction. */
  class ZcbCurve {
    const t0: int
    const maturities: seq<real>
    const yieldRates: seq<real>
    const discounts: seq<real>
    const rateKind: string
    const compounding: real

    ghost predicate Valid() {
      && |maturities| == |yieldRates| == |discounts|
      && StrictlyIncreasing(maturities)
      && rateKind == YieldKind
    }

    /** Construction once the input checks have passed: the given rates are stored as given,
        the other representation is derived from them, and the kind ends up YieldKind. As in the
        source, the rates default to yields and the compounding parameter to 1/2. */
    constructor (t: int, ts: seq<real>, rs: seq<real>, m: Transcendentals,
                 kind: string := YieldKind, frequency: real := 0.5)
      requires CheckCurveInputs(ts, rs, kind).Success?
      requires StrictlyIncreasing(ts)
      ensures Valid()
      ensures t0 == t && maturities == ts && compounding == frequency && rateKind == YieldKind
      ensures kind == YieldKind ==> yieldRates == rs && discounts == YieldsToDiscounts(m, ts, rs, frequency)
      ensures kind == DiscountFactorKind ==> discounts == rs && yieldRates == DiscountsToYields(m, ts, rs, frequency)
    {
      t0 := t;
      maturities := ts;
      yieldRates := rs;
      rateKind := kind;
      compounding := frequency;
      if kind == YieldKind {
        discounts := YieldsToDiscounts(m, ts, rs, frequency);
      } else {
        rateKind := YieldKind;
        discounts := rs;
        yieldRates := DiscountsToYields(m, ts, rs, frequency);
      }
    }

    /** Construction with its input checks: fails exactly when the checks fail. */
    static method New(t: int, ts: seq<real>, rs: seq<real>, m: Transcendentals,
                      kind: string := YieldKind, frequency: real := 0.5)
      returns (r: Result<ZcbCurve>)
      requires StrictlyIncreasing(ts)
      ensures CheckCurveInputs(ts, rs, kind).Failure? ==> r == Failure(CheckCurveInputs(ts, rs, kind).error)
      ensures CheckCurveInputs(ts, rs, kind).Success? ==> r.Success? && fresh(r.value) && r.value.Valid()
      ensures r.Success? ==> r.value.t0 == t && r.value.maturities == ts && r.value.compounding == frequency
      ensures r.Success? && kind == YieldKind ==>
                r.value.yieldRates == rs && r.value.discounts == YieldsToDiscounts(m, ts, rs, frequency)
      ensures r.Success? && kind == DiscountFactorKind ==>
                r.value.discounts == rs && r.value.yieldRates == DiscountsToYields(m, ts, rs, frequency)
    {
      var checked := CheckCurveInputs(ts, rs, kind);
      if checked.Failure? {
        return Failure(checked.error);
      }
      var curve := new ZcbCurve(t, ts, rs, m, kind, frequency);
      return Success(curve);
    }

    /** The interpolator over the yields or over the discount factors; an interpolation method
        other than LinearMethod gives no function at all. */
    function GetCurve(interpo: string := LinearMethod, which: string := YieldKind): (r: Result<Option<Interpolator>>)
      requires Valid()
      ensures which != YieldKind && which != DiscountFactorKind <==> r == Failure(UnknownRepresentation)
      ensures (which == YieldKind || which == DiscountFactorKind) && interpo != LinearMethod <==> r == Success(None)
      ensures (which == YieldKind || which == DiscountFactorKind) && interpo == LinearMethod ==> r.Success? && r.value.Some?
      ensures r.Success? && r.value.Some? ==>
                && r.value.value.Valid()
                && r.value.value.knots == maturities
                && r.value.value.values == (if which == YieldKind then yieldRates else discounts)
    {
      if which != YieldKind && which != DiscountFactorKind then Failure(UnknownRepresentation)
      else if interpo != LinearMethod then Success(None)
      else Success(Some(Linear(maturities, if which == YieldKind then yieldRates else discounts)))
    }

    /** The discount-factor interpolator under the default linear method: `get_curve(which='discount factor')`. */
    function DiscountCurve(): (f: Interpolator)
      requires Valid()
      ensures f.Valid() && f.knots == maturities && f.values == discounts
    {
      GetCurve(which := DiscountFactorKind).value.value
    }

    /** The forward discount factor P(t, T) = DF(T) / DF(t). */
    function GetDiscountFactor(t: TimeArg, T: TimeArg, interpo: string := LinearMethod): (r: Result<real>)
      requires Valid()
      ensures ResolveQueryTimes(t0, t, T).Failure? ==> r == Failure(ResolveQueryTimes(t0, t, T).error)
      ensures ResolveQueryTimes(t0, t, T).Success? && interpo != LinearMethod ==> r == Failure(NotCallable)
      ensures ResolveQueryTimes(t0, t, T).Success? && interpo == LinearMethod && |maturities| == 0 ==> r == Failure(EmptyCurve)
      ensures r.Success? ==>
                var (tt, tT) := ResolveQueryTimes(t0, t, T).value;
                && |maturities| > 0
                && Interp(maturities, discounts, tt) != 0.0
                && r.value == Interp(maturities, discounts, tT) / Interp(maturities, discounts, tt)
      ensures ResolveQueryTimes(t0, t, T).Success? && interpo == LinearMethod && |maturities| > 0 ==>
                (r.Success? <==> Interp(maturities, discounts, ResolveQueryTimes(t0, t, T).value.0) != 0.0)
    {
      var times := ResolveQueryTimes(t0, t, T);
      if times.Failure? then Failure(times.error)
      else
        var curve := GetCurve(interpo, DiscountFactorKind).value;
        if curve.None? then Failure(NotCallable)
        else
          var dT := curve.value.At(times.value.1);
          if dT.Failure? then Failure(dT.error)
          else
            var dt := curve.value.At(times.value.0).value;
            if dt == 0.0 then Failure(NonFinite) else Success(dT.value / dt)
    }

    /** The annualised forward rate between t and T implied by the interpolated yields. With
        continuous compounding (frequency 0) it is (y(T)·T − y(t)·t)/(T − t). */
    function GetForwardRate(t: TimeArg, T: TimeArg, m: Transcendentals,
                            interpo: string := LinearMethod, frequency: real := 0.5): (r: Result<real>)
      requires Valid()
      ensures ResolveQueryTimes(t0, t, T).Failure? ==> r == Failure(ResolveQueryTimes(t0, t, T).error)
      ensures ResolveQueryTimes(t0, t, T).Success? && interpo != LinearMethod ==> r == Failure(NotCallable)
      ensures ResolveQueryTimes(t0, t, T).Success? && interpo == LinearMethod && |maturities| == 0 ==> r == Failure(EmptyCurve)
      ensures r.Success? && frequency == 0.0 ==>
                var (tt, tT) := ResolveQueryTimes(t0, t, T).value;
                && |maturities| > 0
                && tt < tT
                && r.value == ContinuousForward(Interp(maturities, yieldRates, tt), Interp(maturities, yieldRates, tT), tt, tT)
      ensures ResolveQueryTimes(t0, t, T).Success? && interpo == LinearMethod && |maturities| > 0 ==>
                (r.Success? <==> ResolveQueryTimes(t0, t, T).value.0 < ResolveQueryTimes(t0, t, T).value.1)
    {
      var times := ResolveQueryTimes(t0, t, T);
      if times.Failure? then Failure(times.error)
      else
        var (tt, tT) := times.value;
        var curve := GetCurve(interpo, YieldKind).value;
        if curve.None? then Failure(NotCallable)
        else
          var yT := curve.value.At(tT);
          if yT.Failure? then Failure(yT.error)
          else
            var yt := curve.value.At(tt).value;
            if frequency != 0.0 then
              if tT == tt then Failure(ZeroDivision) else Success(m.periodicForward(yt, yT.value, tt, tT, frequency))
            else
              if tT == tt then Failure(NonFinite) else Success(ContinuousForward(yt, yT.value, tt, tT))
    }
  }

  /** The linear interpolator the curve hands out reproduces every stored point exactly,
      below the first maturity it returns the first value and above the last the last value,
      and strictly between two adjacent maturities it returns their linear blend. */
  lemma InterpolatorMatchesCurve(curve: ZcbCurve, which: string, k: nat, x: real)
    requires curve.Valid()
    requires which == YieldKind || which == DiscountFactorKind
    requires k < |curve.maturities|
    ensures var f := curve.GetCurve(which := which).value.value;
            && f.At(curve.maturities[k]) == Success(f.values[k])
            && (x <= curve.maturities[0] ==> f.At(x) == Success(f.values[0]))
            && (curve.maturities[|curve.maturities| - 1] <= x ==> f.At(x) == Success(f.values[|f.values| - 1]))
            && (k + 1 < |curve.maturities| && curve.maturities[k] < x < curve.maturities[k + 1] ==>
                  f.At(x) == Success(Blend(curve.maturities[k], f.values[k], curve.maturities[k + 1], f.values[k + 1], x)))
  {
    var f := curve.GetCurve(which := which).value.value;
    InterpAtKnot(f.knots, f.values, k);
    if k + 1 < |curve.maturities| && curve.maturities[k] < x < curve.maturities[k + 1] {
      InterpBetween(f.knots, f.values, k, x);
    }
  }

  lemma RatioChain(da: real, db: real, dc: real, p: real, q: real)
    requires da != 0.0 && db != 0.0
    requires p == db / da && q == dc / db
    ensures p * q == dc / da
  {
  }

  lemma RatioBetweenZeroAndOne(n: real, d: real)
    requires 0.0 < n < d
    ensures 0.0 < n / d < 1.0
  {
    assert d / d == 1.0;
    assert n / d < d / d;
  }

  /** Discount factors compose: P(a, b) · P(b, c) = P(a, c). */
  lemma DiscountFactorChain(curve: ZcbCurve, a: real, b: real, c: real, p: real, q: real)
    requires curve.Valid()
    requires curve.GetDiscountFactor(FloatArg(a), FloatArg(b)) == Success(p)
    requires curve.GetDiscountFactor(FloatArg(b), FloatArg(c)) == Success(q)
    ensures curve.GetDiscountFactor(FloatArg(a), FloatArg(c)) == Success(p * q)
  {
    var da := Interp(curve.maturities, curve.discounts, a);
    var db := Interp(curve.maturities, curve.discounts, b);
    var dc := Interp(curve.maturities, curve.discounts, c);
    assert 0.0 <= a < b < c;
    assert p == db / da && q == dc / db;
    var r := curve.GetDiscountFactor(FloatArg(a), FloatArg(c));
    assert r.Success?;
    assert r.value == dc / da;
    RatioChain(da, db, dc, p, q);
  }

  /** On a curve whose discount factors fall with maturity and stay positive, the forward
      discount factor between two sampled times is strictly between 0 and 1. */
  lemma DiscountFactorBelowOne(curve: ZcbCurve, t: real, T: real)
    requires curve.Valid() && |curve.maturities| > 0
    requires StrictlyDecreasing(curve.discounts) && curve.discounts[|curve.discounts| - 1] > 0.0
    requires 0.0 <= t && curve.maturities[0] <= t < T <= curve.maturities[|curve.maturities| - 1]
    ensures curve.GetDiscountFactor(FloatArg(t), FloatArg(T)).Success?
    ensures 0.0 < curve.GetDiscountFactor(FloatArg(t), FloatArg(T)).value < 1.0
  {
    var ms, ds := curve.maturities, curve.discounts;
    InterpStrictlyDecreasing(ms, ds, t, T);
    if T < ms[|ms| - 1] {
      InterpStrictlyDecreasing(ms, ds, T, ms[|ms| - 1]);
    }
    var dt, dT := Interp(ms, ds, t), Interp(ms, ds, T);
    assert dt > dT >= ds[|ds| - 1];
    RatioBetweenZeroAndOne(dT, dt);
  }

  /** A flat continuously compounded yield curve has every forward rate equal to its yield. */
  lemma ForwardRateOfFlatCurve(curve: ZcbCurve, c: real, t: real, T: real, m: Transcendentals)
    requires curve.Valid() && |curve.maturities| > 0
    requires forall i :: 0 <= i < |curve.yieldRates| ==> curve.yieldRates[i] == c
    requires 0.0 <= t < T
    ensures curve.GetForwardRate(FloatArg(t), FloatArg(T), m, frequency := 0.0) == Success(c)
  {
    InterpFlat(curve.maturities, curve.yieldRates, c, t);
    InterpFlat(curve.maturities, curve.yieldRates, c, T);
  }

  /** Yields of 5% at one year and 6% at two years give a continuous forward rate of 7% between them. */
  lemma ForwardRateExample(curve: ZcbCurve, m: Transcendentals)
    requires curve.Valid()
    requires curve.maturities == [1.0, 2.0] && curve.yieldRates == [5.0, 6.0]
    ensures curve.GetForwardRate(FloatArg(1.0), FloatArg(2.0), m, frequency := 0.0) == Success(7.0)
  {
  }
}
